=== FILE: README.md ===
# PageRank estimators, modelled in Dafny

`pagerank.py` ranks the pages of a small corpus of HTML files in two ways. It
first builds a link graph from the files (`crawl`). It then estimates
PageRank by a random surfer that follows the transition model
(`sample_pagerank` over `transition_model`). It also estimates it by
iterating the PageRank recurrence until a sweep in which every page moves
by less than a threshold (`iterate_pagerank`).

This project models these operations over Dafny's exact `real` numbers and
proves what they compute.

- `LinkGraph` (link_graph.dfy): the corpus is the dictionary's key order
  (`pages`) plus its contents (`links`). `Result` and `PyError` stand for the
  exceptions the code raises.
- `Sums` (sums.dfy): sums of a map along the key order, and the counting
  facts about duplicate-free key sequences.
- `Crawl` (crawl.dfy): the two filtering passes of `crawl`. The first drops
  a file's own name from its hrefs. The second drops targets that are not
  corpus pages.
- `Transition` (transition.dfy): `transition_model`, including both of its
  edge cases. A page that is not a key makes the count zero and raises
  `ZeroDivisionError`. A page with no links gets weights that sum to `1 - d`.
- `Sampling` (sampling.dfy): `sample_pagerank`. The pages returned by
  `random.choices` are an input sequence `draws`, and the model requires
  each draw to be a page the transition model gives positive weight. A
  step from a page whose weights total at most 0 raises `ValueError`, as
  `random.choices` does from Python 3.9 on.
- `Iteration` (iteration.dfy): `iterate_pagerank`.
  - The sweep is a fold over the key order that writes each new rank back at
    once. Later pages therefore read ranks already updated in the same sweep.
  - The sweep, and the `while True` loop around it (`SweepUntilSettled`),
    are stated for any rule `(Ranks, Page) --> real`. Their bookkeeping
    lemmas hold independently of the arithmetic, and `PageRankRule`
    instantiates them.
  - `Iterate(c, d, k)` is the reference definition of the ranks after `k`
    sweeps; `IteratePageRank` returns `Iterate` at the first sweep that
    settles every page.
  - It is compared with the synchronous update (`SynchronousSweep`,
    `PageRankUpdate`), in which every page reads the old ranks.
  - The rank total under the synchronous update is worked out exactly.

How the code differs from its own docstrings and from the textbook
algorithm (the model follows the code):

- The sweep updates ranks in place rather than synchronously. The two
  updates have the same fixed points (`FixedPointsAgree`), but the ranks
  between sweeps differ (`SweepOrderMatters`, `SweepOrderExample`).
- A page without links passes no rank on, and nothing redistributes its
  rank. The ranks of `iterate_pagerank` then do not sum to 1, despite its
  docstring (pagerank.py:129-131).
  - `SynchronousTotal` gives the exact loss of one synchronous update.
    The total under the code's in-place sweep is not characterised.
  - `DanglingPageLosesRank` shows a corpus of one page without links
    settling at 0.15.
  - Likewise, the weights `transition_model` gives from such a page sum to
    `1 - d` (`DanglingTransition`), although its docstring
    (pagerank.py:53-54) calls them a probability distribution. With
    `d = 1` they are all 0, and `sample_pagerank` raises `ValueError` on
    the step from that page (`StuckIffUndampedDangling`).
  - The ranks of `sample_pagerank` are visit shares and sum to exactly 1
    for every `n >= 1` (`SamplePageRank`). A negative `n` returns a single
    share of `1 / n`.
- In a closed corpus where every page has a link, the synchronous update
  keeps a total of 1 (`SynchronousKeepsTotal`). If moreover `d != 1`,
  ranks the code's in-place sweep leaves unchanged sum to 1
  (`InPlaceFixedPointSumsToOne`; `TwoCycleHalvesAreFixed` gives such
  ranks).

## Model

| member | source | states |
|---|---|---|
| `Crawl.ReadLinks` | pagerank.py:34-40 | the first pass has one key per HTML file, and each file's link set is its distinct hrefs minus its own name |
| `Crawl.KeepCorpusLinks` | pagerank.py:43-47 | the second pass keeps every key; each page keeps a subset of its links, all of them corpus pages, and every link it drops pointed outside the corpus |
| `Crawl.Crawl` | pagerank.py:25-49 | the crawled corpus keeps the files' listing order; it is closed and has no self-links; a page links to `q` exactly when `q` is one of its hrefs, is not the page itself and is a page of the corpus |
| `Crawl.KeepCorpusLinksFixesClosedMaps` | pagerank.py:43-47 | the second pass changes nothing exactly when every target is already a key, so applying it twice equals applying it once |
| `Transition.CountIsPositiveForKeys` | pagerank.py:63-82 | `total = len(linked) + len(unlinked)` is positive exactly when `page` is a key of the corpus |
| `Transition.TransitionModel` | pagerank.py:52-91 | raises `ZeroDivisionError` exactly when `page` is not a key; otherwise it has a weight for every key, all weights are non-negative for `d` in [0, 1], and all are positive for `d` in [0, 1) |
| `Transition.TransitionMatchesWeight` | pagerank.py:73-89 | when `page`'s links are all keys, linked and unlinked pages partition the corpus, so `base_prob = (1 - d) / N`; each weight is `(1 - d) / N` plus `d / len(links)` for a linked page |
| `Transition.TransitionSumsToOne` | pagerank.py:80-89 | from a page with at least one link, all links being keys, the weights sum to exactly 1 |
| `Transition.DanglingTransition` | pagerank.py:80-89 | from a page without links no division by the link count happens, every weight is `(1 - d) / N`, and they sum to `1 - d` |
| `Sampling.EveryWalkFollowsModel` | pagerank.py:112-119 | for `d` in [0, 1), every page has positive weight after every page, so any sequence of corpus pages is a walk `random.choices` can produce |
| `Sampling.VisitsIsMultiplicity` | pagerank.py:108-120 | the number of steps a walk spends on a page is the page's multiplicity in the walk |
| `Sampling.StuckIffUndampedDangling` | pagerank.py:80-89 | in a closed corpus with `d` in [0, 1], the weights of a page total at most 0, so that `random.choices` raises, exactly when `d = 1` and the page has no links |
| `Sampling.StepsFromAny` | pagerank.py:110-119 | reports whether some page of the walk other than the last, that is some page a step starts from, is in the given set |
| `Sampling.SamplePageRank` | pagerank.py:94-122 | an empty corpus raises `IndexError`, `n = 0` raises `ZeroDivisionError`, and a step from a page whose weights total at most 0 raises `ValueError`, each exactly in its case; otherwise every key gets its visit count divided by `n`; for `n >= 1` each rank lies in [0, 1] and the ranks sum to exactly 1 |
| `Sampling.RecordWalk` | pagerank.py:102-120 | starting every key at 0 and adding `1 / n` per draw leaves each page with one share per visit |
| `Sampling.VisitSharesSum` | pagerank.py:104-120 | the recorded shares, summed over all pages, make one share per draw |
| `Sampling.SharesAsFractions` | pagerank.py:108-120 | after all draws each rank is visits over `n`; for `n >= 1` it lies in [0, 1], and the `n` shares make 1 |
| `Sampling.RepeatedShares` | pagerank.py:108-120 | adding `1 / n` `k` times gives `k / n`, which lies in [0, 1] when `k <= n`, and `n` such additions give 1 |
| `Iteration.InflowIsNonNegative` | pagerank.py:148-154 | `sigma` is a sum of non-negative terms whenever the ranks are non-negative |
| `Iteration.NewRankLowerBound` | pagerank.py:147-157 | for `d` in [0, 1] and non-negative ranks, a page's new rank is at least `(1 - d) / N`, which is itself non-negative |
| `Iteration.Sweep` | pagerank.py:143-162 | a sweep keeps the key set, leaves keys outside the swept sequence untouched, and counts at most one settled page per swept key |
| `Iteration.SweepStep` | pagerank.py:145-162 | over distinct keys, the rest of a sweep runs on the ranks with the first key already updated and never changes that key again |
| `Iteration.SweepSettledIff` | pagerank.py:143-165 | the loop's test `count == N` holds exactly when every page moved by less than the threshold during the sweep |
| `Iteration.AllSettledIfCounted` | pagerank.py:159-164 | if all swept pages were counted, every one of them moved by less than the threshold |
| `Iteration.CountedIfAllSettled` | pagerank.py:159-164 | if every swept page moved by less than the threshold, all of them were counted |
| `Iteration.SweepSplit` | pagerank.py:145-162 | a sweep over a key sequence is a sweep over a prefix followed by a sweep over the rest, and the counts add up |
| `Iteration.SweepReadsUpdated` | pagerank.py:145-162 | the page at position `j` is computed from ranks that hold the new values for the pages before it and the old values for the pages from it on |
| `Iteration.FixedPointIff` | pagerank.py:145-162 | a sweep leaves the ranks unchanged exactly when the recurrence reproduces every page's rank, and such a sweep counts every page as settled |
| `Iteration.FixedPointsAgree` | pagerank.py:145-165 | the in-place sweep and the synchronous update have exactly the same fixed points |
| `Iteration.SweepStaysAbove` | pagerank.py:145-162 | if the rule lifts ranks of at least `lo` to at least `hi >= lo`, a sweep keeps every rank at least `lo` and leaves every swept page at least `hi` |
| `Iteration.PageRankLifts` | pagerank.py:147-157 | for `d` in [0, 1] the recurrence lifts non-negative ranks to at least the non-negative teleport share `(1 - d) / N` |
| `Iteration.InitialRanks` | pagerank.py:138-140 | the starting ranks have exactly the corpus keys |
| `Iteration.InitialRanksSumToOne` | pagerank.py:138-140 | the starting ranks of a non-empty corpus are `1 / N`, sum to 1, and are at least the teleport share for `d` in [0, 1] |
| `Iteration.SweepUntilSettled` | pagerank.py:141-165 | for any rule, the loop returns the ranks after the sweeps it took; it stops early only after a sweep that settled every page, and no sweep before that one settled |
| `Iteration.SweepOnce` | pagerank.py:143-165 | one pass of the `while True` body takes the ranks after `k` sweeps to those after `k + 1`, and `count == N` exactly when that sweep settled every page |
| `Iteration.SettlesAtNext` | pagerank.py:159-165 | sweep `k + 1` starts from the ranks after `k` sweeps, and it settles exactly when it counts every page as settled |
| `Iteration.RepeatedlyStaysAbove` | pagerank.py:141-165 | repeated sweeps with a rule that lifts ranks of at least `lo` to at least `hi >= lo` keep every rank at least `lo`, and after one sweep every swept page is at least `hi` |
| `Iteration.IterateStaysAbove` | pagerank.py:138-165 | for `d` in [0, 1], the ranks after any number of sweeps are at least `(1 - d) / N` |
| `Iteration.IteratePageRank` | pagerank.py:134-167 | returns the ranks after `sweeps` sweeps from `1 / N`, where `sweeps` is the first sweep that moved every page by less than the threshold, or the cut-off when none did; with no sweep the ranks are the starting ones; an empty corpus returns `{}` as converged after one sweep; for `d` in [0, 1] every rank is at least `(1 - d) / N` |
| `Iteration.InflowMapStep` | pagerank.py:150-154 | taking one more page `q` into `sigma` adds `ranks[q] / len(links[q])` to each page it links to |
| `Iteration.LinkSharesAddUp` | pagerank.py:152-154 | in a closed corpus a page's link shares, one per link target, add up to its whole rank, or to nothing when it has no links |
| `Iteration.InflowTotal` | pagerank.py:148-154 | summed over all pages, the `sigma` terms from a set of pages add up to the rank those pages pass on through their links |
| `Iteration.InflowSumStep` | pagerank.py:150-154 | summed over all pages, taking one more page into `sigma` adds one link share per page it links to |
| `Iteration.PageRankUpdateIsSynchronous` | pagerank.py:145-157 | the synchronous PageRank update is the synchronous sweep with the recurrence as its rule |
| `Iteration.SynchronousAffine` | pagerank.py:145-157 | the synchronous update sums to `N` teleport shares plus `d` times the summed `sigma` values |
| `Iteration.TeleportSharesAddUp` | pagerank.py:147 | `N` teleport shares `(1 - d) / N` make `1 - d` |
| `Iteration.SynchronousTotal` | pagerank.py:145-157 | in a closed corpus, one synchronous update yields total rank `(1 - d) + d * (the rank held by pages with links)`, so rank on pages without links is lost |
| `Iteration.NothingLostWhenAllLinked` | pagerank.py:152-154 | when every page has a link, the rank passed on through links adds up to the whole rank |
| `Iteration.PassingOnAllKeepsTotal` | pagerank.py:145-157 | when the rank passed on through links totals 1, the synchronous update totals 1 |
| `Iteration.SynchronousKeepsTotal` | pagerank.py:129-131 | when every page of a closed corpus has a link, ranks that sum to 1 still sum to 1 after a synchronous update, as the docstring promises |
| `Iteration.InPlaceFixedPointIsSynchronous` | pagerank.py:145-162 | ranks the in-place sweep leaves unchanged are left unchanged by the synchronous update too |
| `Iteration.SynchronousFixedPointSumsToOne` | pagerank.py:129-131 | when every page of a closed corpus has a link and `d != 1`, ranks the synchronous update leaves unchanged sum to 1 |
| `Iteration.InPlaceFixedPointSumsToOne` | pagerank.py:129-131 | when every page of a closed corpus has a link and `d != 1`, ranks the in-place sweep of `iterate_pagerank` leaves unchanged sum to 1, as the docstring promises |
| `Iteration.TwoCycleHalvesAreFixed` | pagerank.py:141-165 | in two pages that link to each other, with `d = 0.85`, ranks of 0.5 each are left unchanged by the in-place sweep and sum to 1, so the fixed-point lemmas above apply to a real corpus |
| `Iteration.TwoCycleNewRank` | pagerank.py:147-157 | in two pages linking to each other with `d = 0.85`, each page's new rank is `0.075 + 0.85` times the other's rank |
| `Iteration.SweepOrderMatters` | pagerank.py:145-162 | in that corpus the in-place sweep and the synchronous update agree on the second page exactly when the first page's rank did not move |
| `Iteration.SweepOrderExample` | pagerank.py:145-162 | from ranks 1 and 0 the in-place sweep gives the second page 0.13875 where the synchronous update gives 0.925 |
| `Iteration.DanglingPageLosesRank` | pagerank.py:136-165 | a corpus of one page without links starts at rank 1, drops to 0.15 after one sweep with nothing settled, then settles at 0.15 after the next, so the returned ranks sum to 0.15 and not 1 |

## Left out

- `main` (pagerank.py:10-22) is left out: argument checking and printing.
- The directory listing, file reading and href regular expression of
  `crawl` (pagerank.py:34-39) are left out. `Crawl` takes each HTML file's
  name and its extracted hrefs as input, with distinct file names as a
  directory listing gives them.
- `random.choices` (pagerank.py:107, 119) is not modelled as a distribution.
  The chosen pages are the input `draws`, so the model says nothing about
  how closely the two estimators agree.
- Floating point is not modelled. All arithmetic is over exact reals, so
  `1 / n` accumulated `n` times is exactly 1, and the threshold test
  `abs(old - new) < 0.0005` is exact.
- Iteration.IteratePageRank: the `while True` loop of `iterate_pagerank`
  has no cut-off; the model stops after at most `maxSweeps` sweeps. Up to
  that cut-off the contract pins down the result (`Iterate` at the first
  settling sweep). It does not claim that the loop terminates, because
  convergence of the in-place sweep below the threshold is not proved.
- Iteration.IteratePageRank: the docstring's upper bound, every rank at
  most 1 (pagerank.py:129-130), is not proved for the in-place sweep. Only
  the lower bound `(1 - d) / N` is. The bound cannot come from the rank
  total, because the in-place sweep does not keep that total (see below).
- Sampling.SamplePageRank: each draw after a step that does not raise must
  be a page the transition model gives positive weight. For `d` outside
  [0, 1] some weights are negative, and `random.choices` may then return a
  page of weight 0 or less; the model does not cover such draws. The
  contract does not say the draws follow the model's probabilities. For a
  negative `n`, `range(1, n)` is empty and the model
  records one draw of `1 / n`, as the code does, but it states no bounds
  for that case.
- The docstring promise that `iterate_pagerank`'s ranks sum to 1 is proved
  in two cases, each for a closed corpus where every page has a link. One
  is the synchronous update (`SynchronousKeepsTotal`). The other is the
  exact fixed points of the in-place sweep when `d != 1`
  (`InPlaceFixedPointSumsToOne`). It is not proved for the ranks
  `iterate_pagerank` returns, which are only within the threshold of a
  fixed point. The in-place sweep does not keep the total in general: from
  ranks 1 and 0 in `SweepOrderExample`, one in-place sweep gives ranks
  0.075 and 0.13875.

=== FILE: crawl.dfy ===
/** The link-filtering part of `crawl`: given each HTML file's name and the
    href values found in it (in directory-listing order), build the corpus.
    A first pass keeps each file's distinct hrefs other than the file
    itself; a second pass drops every target that is not a file of the
    corpus. */
module Crawl {
  import opened Sums
  import opened LinkGraph

  /** One HTML file of the corpus directory and the hrefs of its anchors,
      in the order they were found. */
  datatype HtmlFile = HtmlFile(name: Page, hrefs: seq<Page>)

  /** The file names, in listing order. */
  function Names(files: seq<HtmlFile>): (names: seq<Page>)
    ensures |names| == |files|
    ensures forall i :: 0 <= i < |files| ==> names[i] == files[i].name
  {
    seq(|files|, i requires 0 <= i < |files| => files[i].name)
  }

  /** First pass: every file maps to the set of its hrefs without its own
      name. */
  function ReadLinks(files: seq<HtmlFile>): (m: map<Page, set<Page>>)
    ensures m.Keys == Elements(Names(files))
    ensures Distinct(Names(files)) ==>
      forall i :: 0 <= i < |files| ==> m[files[i].name] == Elements(files[i].hrefs) - {files[i].name}
  {
    if |files| == 0 then map[]
    else
      var init := files[..|files| - 1];
      var last := files[|files| - 1];
      assert Names(files) == Names(init) + [last.name];
      ReadLinks(init)[last.name := Elements(last.hrefs) - {last.name}]
  }

  /** Second pass: keep only the targets that are pages of the corpus. The
      result links only among its own keys, keeps a subset of each page's
      links, and every link it drops pointed outside the corpus. */
  function KeepCorpusLinks(m: map<Page, set<Page>>): (r: map<Page, set<Page>>)
    ensures r.Keys == m.Keys
    ensures forall p :: p in r ==> r[p] <= m[p] && r[p] <= r.Keys && (m[p] - r[p]) !! m.Keys
  {
    map p | p in m :: set q | q in m[p] && q in m
  }

  /** The corpus built from a directory listing of distinct file names. */
  function Crawl(files: seq<HtmlFile>): (c: Corpus)
    requires Distinct(Names(files))
    ensures c.pages == Names(files)
    ensures c.IsLinkGraph()
    ensures forall i, q :: 0 <= i < |files| ==>
      (q in c.links[files[i].name] <==> q in files[i].hrefs && q != files[i].name && q in c.links)
  {
    Corpus(Names(files), KeepCorpusLinks(ReadLinks(files)))
  }

  /** The second pass leaves a link map unchanged exactly when every target
      is already a key; hence running it twice is the same as running it
      once. */
  lemma KeepCorpusLinksFixesClosedMaps(m: map<Page, set<Page>>)
    ensures KeepCorpusLinks(m) == m <==> forall p :: p in m ==> m[p] <= m.Keys
    ensures KeepCorpusLinks(KeepCorpusLinks(m)) == KeepCorpusLinks(m)
  {
    var once := KeepCorpusLinks(m);
    if forall p :: p in m ==> m[p] <= m.Keys {
      forall p | p in m
        ensures once[p] == m[p]
      {
      }
    }
    var twice := KeepCorpusLinks(once);
    forall p | p in twice
      ensures twice[p] == once[p]
    {
    }
  }
}

=== FILE: iteration.dfy ===
/** `iterate_pagerank`: start every page at `1 / N` and repeatedly sweep
    over the pages in key order, replacing each page's rank by

      (1 - d) / N + d * (sum, over the pages q that link to it, of rank(q) / |links(q)|)

    until a sweep in which every page moved by less than the threshold.
    The sweep writes each new rank back at once, so a page later in the
    order already reads the new ranks of the pages before it. */
module Iteration {
  import opened Sums
  import opened LinkGraph

  /** The convergence threshold `iterate_pagerank` compares against (pagerank.py:136). */
  const Threshold: real := 0.0005

  /** A rank for every page. */
  type Ranks = map<Page, real>

  /** Python's `abs` on a real. */
  function Abs(x: real): real {
    if x < 0.0 then -x else x
  }

  /** A rank that moved from `before` to `after` counts towards `count`. */
  predicate Settles(before: real, after: real) {
    Abs(before - after) < Threshold
  }

  /** The teleport share `(1 - d) / N` every page receives in a sweep. */
  function TeleportShare(c: Corpus, d: real): real
    requires |c.links| > 0
  {
    (1.0 - d) / |c.links| as real
  }

  /** The share of its rank that page `q` passes to each of its links. */
  function LinkShare(c: Corpus, m: Ranks, q: Page): real
    requires q in c.links && q in m
  {
    if |c.links[q]| > 0 then m[q] / |c.links[q]| as real else 0.0
  }

  /** The rank flowing into `key` from the pages `qs`: each of them that
      links to `key` passes on its rank divided by its number of links.
      Non-negative ranks give a non-negative inflow. */
  function Inflow(c: Corpus, ranks: Ranks, key: Page, qs: seq<Page>): real
    requires forall i :: 0 <= i < |qs| ==> qs[i] in c.links && qs[i] in ranks
  {
    if |qs| == 0 then 0.0
    else
      var q := qs[0];
      var rest := Inflow(c, ranks, key, qs[1..]);
      if key in c.links[q] then rest + LinkShare(c, ranks, q) else rest
  }

  /** Non-negative ranks give a non-negative inflow. */
  lemma {:induction false} InflowIsNonNegative(c: Corpus, ranks: Ranks, key: Page, qs: seq<Page>)
    requires forall i :: 0 <= i < |qs| ==> qs[i] in c.links && qs[i] in ranks
    requires forall i :: 0 <= i < |qs| ==> ranks[qs[i]] >= 0.0
    ensures Inflow(c, ranks, key, qs) >= 0.0
  {
    if |qs| > 0 {
      InflowIsNonNegative(c, ranks, key, qs[1..]);
      if key in c.links[qs[0]] {
        NonNegativeShare(ranks[qs[0]], |c.links[qs[0]]|);
      }
    }
  }

  /** A non-negative amount split into a positive number of parts gives
      non-negative parts. */
  lemma NonNegativeShare(x: real, k: nat)
    requires k > 0
    ensures x >= 0.0 ==> x / k as real >= 0.0
  {
  }

  /** The recurrence for one page, read against the current ranks. */
  function NewRank(c: Corpus, d: real, ranks: Ranks, key: Page): real
    requires c.WellFormed()
    requires key in c.links
    requires ranks.Keys == c.links.Keys
  {
    PagesAreKeys(c);
    TeleportShare(c, d) + Scale(d, Inflow(c, ranks, key, c.pages))
  }

  /** With `d` in [0, 1] and non-negative ranks, a recomputed rank is at
      least the teleport share, which is itself non-negative. */
  lemma NewRankLowerBound(c: Corpus, d: real, ranks: Ranks, key: Page)
    requires c.WellFormed()
    requires key in c.links
    requires ranks.Keys == c.links.Keys
    requires 0.0 <= d <= 1.0
    requires forall p :: p in ranks ==> ranks[p] >= 0.0
    ensures 0.0 <= TeleportShare(c, d) <= NewRank(c, d, ranks, key)
  {
    PagesAreKeys(c);
    var inflow := Inflow(c, ranks, key, c.pages);
    InflowIsNonNegative(c, ranks, key, c.pages);
    assert Scale(d, inflow) >= 0.0;
    NonNegativeShare(1.0 - d, |c.links|);
  }

  /** A rule computes one page's new rank from the current ranks.
      `iterate_pagerank` uses one rule, `NewRank`; the sweep is stated for any rule
      so that its bookkeeping can be reasoned about apart from the
      arithmetic. */
  type Rule = (Ranks, Page) --> real

  /** `rule` can be applied to any page of `keys` and any ranks for them. */
  ghost predicate Applies(rule: Rule, keys: set<Page>) {
    forall m: Ranks, k: Page :: m.Keys == keys && k in keys ==> rule.requires(m, k)
  }

  /** The PageRank recurrence as a rule; it applies to the ranks of a
      well-formed corpus and agrees with `NewRank`. */
  function PageRankRule(c: Corpus, d: real): (rule: Rule)
    ensures c.WellFormed() ==> Applies(rule, c.links.Keys)
    ensures c.WellFormed() ==> forall m: Ranks, k: Page ::
      m.Keys == c.links.Keys && k in c.links ==> rule(m, k) == NewRank(c, d, m, k)
  {
    (m: Ranks, k: Page) requires c.WellFormed() && m.Keys == c.links.Keys && k in c.links => NewRank(c, d, m, k)
  }

  /** The ranks after a sweep and the number of pages that moved by less
      than the threshold during it. */
  datatype SweepResult = SweepResult(ranks: Ranks, settled: nat)

  /** One pass of the `for key in corpus` loop over the keys `ks`: each
      page's new rank is computed from the current ranks and written back
      at once, so later pages read it. Only the swept keys change, and at
      most every one of them settles. */
  function Sweep(rule: Rule, ranks: Ranks, ks: seq<Page>): (r: SweepResult)
    requires Applies(rule, ranks.Keys)
    requires Covers(ranks, ks)
    ensures r.ranks.Keys == ranks.Keys
    ensures r.settled <= |ks|
    ensures forall p :: p in ranks && p !in ks ==> r.ranks[p] == ranks[p]
    decreases |ks|
  {
    if |ks| == 0 then SweepResult(ranks, 0)
    else
      var key := ks[0];
      var updated := rule(ranks, key);
      var rest := Sweep(rule, ranks[key := updated], ks[1..]);
      SweepResult(rest.ranks, rest.settled + if Settles(ranks[key], updated) then 1 else 0)
  }

  /** One step of a sweep over distinct keys: the rest of the sweep runs on
      the ranks with the first key recomputed, and never revisits it. */
  lemma SweepStep(rule: Rule, ranks: Ranks, ks: seq<Page>)
    requires Applies(rule, ranks.Keys)
    requires Covers(ranks, ks)
    requires Distinct(ks) && |ks| > 0
    ensures var updated := rule(ranks, ks[0]);
      var rest := Sweep(rule, ranks[ks[0] := updated], ks[1..]);
      && Sweep(rule, ranks, ks).ranks == rest.ranks
      && Sweep(rule, ranks, ks).settled == rest.settled + (if Settles(ranks[ks[0]], updated) then 1 else 0)
      && rest.ranks[ks[0]] == updated
  {
    assert ks[0] !in ks[1..];
  }

  /** Every key of `ks` moved by less than the threshold from `before` to
      `after`. */
  ghost predicate AllSettled(before: Ranks, after: Ranks, ks: seq<Page>)
    requires Covers(before, ks) && Covers(after, ks)
  {
    forall i :: 0 <= i < |ks| ==> Settles(before[ks[i]], after[ks[i]])
  }

  /** Splitting `AllSettled` into its first key and the rest, where the rest
      is compared against `next`, which agrees with `before` there. */
  lemma AllSettledCons(before: Ranks, next: Ranks, after: Ranks, ks: seq<Page>)
    requires |ks| > 0
    requires Covers(before, ks) && Covers(after, ks) && Covers(next, ks)
    requires Distinct(ks)
    requires forall p :: p in next && p != ks[0] ==> p in before && next[p] == before[p]
    ensures AllSettled(before, after, ks) <==>
      Settles(before[ks[0]], after[ks[0]]) && AllSettled(next, after, ks[1..])
  {
    if Settles(before[ks[0]], after[ks[0]]) && AllSettled(next, after, ks[1..]) {
      forall i | 1 <= i < |ks|
        ensures Settles(before[ks[i]], after[ks[i]])
      {
        assert ks[i] == ks[1..][i - 1];
      }
    }
  }

  /** Over distinct keys, `count == N` exactly when every swept page moved
      by less than the threshold: the count is the number of such pages. */
  lemma SweepSettledIff(rule: Rule, ranks: Ranks, ks: seq<Page>)
    requires Applies(rule, ranks.Keys)
    requires Covers(ranks, ks)
    requires Distinct(ks)
    ensures Sweep(rule, ranks, ks).settled == |ks| <==> AllSettled(ranks, Sweep(rule, ranks, ks).ranks, ks)
  {
    if Sweep(rule, ranks, ks).settled == |ks| {
      AllSettledIfCounted(rule, ranks, ks);
    }
    if AllSettled(ranks, Sweep(rule, ranks, ks).ranks, ks) {
      CountedIfAllSettled(rule, ranks, ks);
    }
  }

  /** The forward half of `SweepSettledIff`. */
  lemma {:induction false} AllSettledIfCounted(rule: Rule, ranks: Ranks, ks: seq<Page>)
    requires Applies(rule, ranks.Keys)
    requires Covers(ranks, ks)
    requires Distinct(ks)
    requires Sweep(rule, ranks, ks).settled == |ks|
    ensures AllSettled(ranks, Sweep(rule, ranks, ks).ranks, ks)
  {
    if |ks| > 0 {
      SweepStep(rule, ranks, ks);
      var next := ranks[ks[0] := rule(ranks, ks[0])];
      AllSettledIfCounted(rule, next, ks[1..]);
      AllSettledCons(ranks, next, Sweep(rule, ranks, ks).ranks, ks);
    }
  }

  /** The backward half of `SweepSettledIff`. */
  lemma {:induction false} CountedIfAllSettled(rule: Rule, ranks: Ranks, ks: seq<Page>)
    requires Applies(rule, ranks.Keys)
    requires Covers(ranks, ks)
    requires Distinct(ks)
    requires AllSettled(ranks, Sweep(rule, ranks, ks).ranks, ks)
    ensures Sweep(rule, ranks, ks).settled == |ks|
  {
    if |ks| > 0 {
      SweepStep(rule, ranks, ks);
      var next := ranks[ks[0] := rule(ranks, ks[0])];
      AllSettledCons(ranks, next, Sweep(rule, ranks, ks).ranks, ks);
      CountedIfAllSettled(rule, next, ks[1..]);
    }
  }

  /** A sweep over `ks` is the sweep over its first `j` keys followed by
      the sweep over the rest, starting from the ranks the first part left;
      the settled counts add up. */
  lemma {:induction false} SweepSplit(rule: Rule, ranks: Ranks, ks: seq<Page>, j: int)
    requires Applies(rule, ranks.Keys)
    requires Covers(ranks, ks)
    requires 0 <= j <= |ks|
    ensures var first := Sweep(rule, ranks, ks[..j]);
      var second := Sweep(rule, first.ranks, ks[j..]);
      && Sweep(rule, ranks, ks).ranks == second.ranks
      && Sweep(rule, ranks, ks).settled == first.settled + second.settled
  {
    if j == 0 {
      assert ks[j..] == ks;
    } else {
      var next := ranks[ks[0] := rule(ranks, ks[0])];
      SweepSplit(rule, next, ks[1..], j - 1);
      assert ks[..j][1..] == ks[1..][..j - 1];
      assert ks[1..][j - 1..] == ks[j..];
    }
  }

  /** The in-place update over distinct keys: the page at position `j` gets
      the rule applied to the ranks as the first `j` updates left them,
      which hold the new ranks of the pages before it and the old ranks of
      the pages from it on. */
  lemma SweepReadsUpdated(rule: Rule, ranks: Ranks, ks: seq<Page>, j: int)
    requires Applies(rule, ranks.Keys)
    requires Covers(ranks, ks)
    requires Distinct(ks)
    requires 0 <= j < |ks|
    ensures var pre := Sweep(rule, ranks, ks[..j]).ranks;
      var post := Sweep(rule, ranks, ks).ranks;
      && post[ks[j]] == rule(pre, ks[j])
      && (forall i :: 0 <= i < j ==> pre[ks[i]] == post[ks[i]])
      && (forall i :: j <= i < |ks| ==> pre[ks[i]] == ranks[ks[i]])
  {
    SweepReadsUpdatedAt(rule, ranks, ks, j);
    SweepKeepsEarlier(rule, ranks, ks, j);
    SweepReadsOld(rule, ranks, ks, j);
  }

  /** The page at position `j` gets the rule applied to the ranks as the
      first `j` updates left them. */
  lemma SweepReadsUpdatedAt(rule: Rule, ranks: Ranks, ks: seq<Page>, j: int)
    requires Applies(rule, ranks.Keys)
    requires Covers(ranks, ks)
    requires Distinct(ks)
    requires 0 <= j < |ks|
    ensures Sweep(rule, ranks, ks).ranks[ks[j]] == rule(Sweep(rule, ranks, ks[..j]).ranks, ks[j])
  {
    DistinctParts(ks, j);
    SweepSplit(rule, ranks, ks, j);
    var tail := ks[j..];
    assert tail[0] == ks[j];
    SweepStep(rule, Sweep(rule, ranks, ks[..j]).ranks, tail);
  }

  /** The updates after position `j` leave the pages before it alone. */
  lemma SweepKeepsEarlier(rule: Rule, ranks: Ranks, ks: seq<Page>, j: int)
    requires Applies(rule, ranks.Keys)
    requires Covers(ranks, ks)
    requires Distinct(ks)
    requires 0 <= j < |ks|
    ensures forall i :: 0 <= i < j ==> Sweep(rule, ranks, ks[..j]).ranks[ks[i]] == Sweep(rule, ranks, ks).ranks[ks[i]]
  {
    DistinctParts(ks, j);
    SweepSplit(rule, ranks, ks, j);
  }

  /** The first `j` updates leave the pages from position `j` on alone. */
  lemma SweepReadsOld(rule: Rule, ranks: Ranks, ks: seq<Page>, j: int)
    requires Applies(rule, ranks.Keys)
    requires Covers(ranks, ks)
    requires Distinct(ks)
    requires 0 <= j < |ks|
    ensures forall i :: j <= i < |ks| ==> Sweep(rule, ranks, ks[..j]).ranks[ks[i]] == ranks[ks[i]]
  {
    DistinctParts(ks, j);
  }

  /** The sweep over distinct keys leaves the ranks unchanged exactly when
      the rule reproduces every swept page's rank from them; such a sweep
      counts every page as settled. */
  lemma {:induction false} FixedPointIff(rule: Rule, ranks: Ranks, ks: seq<Page>)
    requires Applies(rule, ranks.Keys)
    requires Covers(ranks, ks)
    requires Distinct(ks)
    ensures Sweep(rule, ranks, ks).ranks == ranks <==>
      forall i :: 0 <= i < |ks| ==> rule(ranks, ks[i]) == ranks[ks[i]]
    ensures Sweep(rule, ranks, ks).ranks == ranks ==> Sweep(rule, ranks, ks).settled == |ks|
  {
    if |ks| > 0 {
      SweepStep(rule, ranks, ks);
      var updated := rule(ranks, ks[0]);
      if updated == ranks[ks[0]] {
        assert ranks[ks[0] := updated] == ranks;
        FixedPointIff(rule, ranks, ks[1..]);
        if forall i :: 0 <= i < |ks[1..]| ==> rule(ranks, ks[1..][i]) == ranks[ks[1..][i]] {
          forall i | 0 <= i < |ks|
            ensures rule(ranks, ks[i]) == ranks[ks[i]]
          {
            if i > 0 {
              assert ks[i] == ks[1..][i - 1];
            }
          }
        }
      }
    }
    if Sweep(rule, ranks, ks).ranks == ranks {
      SweepSettledIff(rule, ranks, ks);
    }
  }

  /** The reference the in-place sweep departs from: every page recomputed
      from the same old ranks. */
  function SynchronousSweep(rule: Rule, ranks: Ranks): (r: Ranks)
    requires Applies(rule, ranks.Keys)
    ensures r.Keys == ranks.Keys
  {
    map k | k in ranks :: rule(ranks, k)
  }

  /** The in-place sweep over all pages and the synchronous update have the
      same fixed points, even though their intermediate ranks differ. */
  lemma FixedPointsAgree(rule: Rule, ranks: Ranks, ks: seq<Page>)
    requires Applies(rule, ranks.Keys)
    requires Distinct(ks) && Elements(ks) == ranks.Keys
    ensures Sweep(rule, ranks, ks).ranks == ranks <==> SynchronousSweep(rule, ranks) == ranks
  {
    assert Covers(ranks, ks) by {
      forall i | 0 <= i < |ks|
        ensures ks[i] in ranks
      {
        assert ks[i] in Elements(ks);
      }
    }
    FixedPointIff(rule, ranks, ks);
    var sync := SynchronousSweep(rule, ranks);
    if forall i :: 0 <= i < |ks| ==> rule(ranks, ks[i]) == ranks[ks[i]] {
      forall k | k in ranks
        ensures sync[k] == ranks[k]
      {
        assert k in Elements(ks);
        var i :| 0 <= i < |ks| && ks[i] == k;
      }
    }
  }

  /** Every rank in `m` is at least `lo`. */
  ghost predicate AllAtLeast(m: Ranks, lo: real) {
    forall p :: p in m ==> m[p] >= lo
  }

  /** From ranks that are all at least `lo`, the rule yields at least `hi`. */
  ghost predicate Lifts(rule: Rule, keys: set<Page>, lo: real, hi: real)
    requires Applies(rule, keys)
  {
    forall m: Ranks, k: Page :: m.Keys == keys && k in keys && AllAtLeast(m, lo) ==> rule(m, k) >= hi
  }

  /** A sweep with a rule that lifts ranks of at least `lo` to at least
      `hi >= lo` keeps every rank at least `lo` and leaves every swept page
      at least at `hi`. */
  lemma {:induction false} SweepStaysAbove(rule: Rule, ranks: Ranks, ks: seq<Page>, lo: real, hi: real)
    requires Applies(rule, ranks.Keys)
    requires Covers(ranks, ks)
    requires lo <= hi && Lifts(rule, ranks.Keys, lo, hi)
    requires AllAtLeast(ranks, lo)
    ensures AllAtLeast(Sweep(rule, ranks, ks).ranks, lo)
    ensures forall i :: 0 <= i < |ks| ==> Sweep(rule, ranks, ks).ranks[ks[i]] >= hi
  {
    if |ks| > 0 {
      var key := ks[0];
      var next := ranks[key := rule(ranks, key)];
      SweepStaysAbove(rule, next, ks[1..], lo, hi);
      var r := Sweep(rule, ranks, ks).ranks;
      forall i | 0 <= i < |ks|
        ensures r[ks[i]] >= hi
      {
        if i > 0 {
          assert ks[i] == ks[1..][i - 1];
        } else if key in ks[1..] {
          var j :| 0 <= j < |ks[1..]| && ks[1..][j] == key;
        }
      }
    }
  }

  /** With `d` in [0, 1], the PageRank rule lifts non-negative ranks to at
      least the teleport share, which is itself non-negative. */
  lemma PageRankLifts(c: Corpus, d: real)
    requires c.WellFormed()
    requires |c.links| > 0
    requires 0.0 <= d <= 1.0
    ensures 0.0 <= TeleportShare(c, d)
    ensures Lifts(PageRankRule(c, d), c.links.Keys, 0.0, TeleportShare(c, d))
  {
    var rule := PageRankRule(c, d);
    forall m: Ranks, k: Page | m.Keys == c.links.Keys && k in c.links && AllAtLeast(m, 0.0)
      ensures rule(m, k) >= TeleportShare(c, d)
    {
      NewRankLowerBound(c, d, m, k);
    }
    NonNegativeShare(1.0 - d, |c.links|);
  }

  /** The starting ranks: `1 / N` for every page, which sum to 1. */
  function InitialRanks(c: Corpus): (r: Ranks)
    ensures r.Keys == c.links.Keys
  {
    if |c.links| == 0 then map[] else map p | p in c.links :: 1.0 / |c.links| as real
  }

  /** The starting ranks of a non-empty corpus sum to 1 along its key order
      and are at least the teleport share for any `d` in [0, 1]. */
  lemma InitialRanksSumToOne(c: Corpus, d: real)
    requires c.WellFormed()
    requires |c.links| > 0
    requires 0.0 <= d <= 1.0
    ensures Covers(InitialRanks(c), c.pages)
    ensures Sum(c.pages, InitialRanks(c)) == 1.0
    ensures AllAtLeast(InitialRanks(c), TeleportShare(c, d))
  {
    var r := InitialRanks(c);
    KeysCoverPages(c, r);
    SizeIsLength(c);
    SumOfShares(c.pages, r, 1.0);
    ShareOfLess(1.0 - d, 1.0, |c.links|);
  }

  /** A smaller amount split into the same number of parts gives smaller
      parts. */
  lemma ShareOfLess(x: real, y: real, k: nat)
    requires k > 0 && x <= y
    ensures x / k as real <= y / k as real
  {
  }

  /** The ranks after `k` sweeps of `rule` over `ks`, starting from
      `start`. */
  function Repeatedly(rule: Rule, start: Ranks, ks: seq<Page>, k: nat): (r: Ranks)
    requires Applies(rule, start.Keys)
    requires Covers(start, ks)
    ensures r.Keys == start.Keys
    ensures Covers(r, ks)
  {
    if k == 0 then start else Sweep(rule, Repeatedly(rule, start, ks, k - 1), ks).ranks
  }

  /** Sweep `j` moved every page of `ks` by less than the threshold. */
  ghost predicate SettlesAt(rule: Rule, start: Ranks, ks: seq<Page>, j: nat)
    requires Applies(rule, start.Keys)
    requires Covers(start, ks)
  {
    j > 0 && AllSettled(Repeatedly(rule, start, ks, j - 1), Repeatedly(rule, start, ks, j), ks)
  }

  /** The state of the `while True` loop after `sweeps` sweeps that went
      on while no sweep settled: the ranks are those after `sweeps` sweeps,
      `converged` says whether the last one settled, and none before it
      did. */
  ghost predicate LoopState(rule: Rule, start: Ranks, ks: seq<Page>, ranks: Ranks, converged: bool, sweeps: nat)
    requires Applies(rule, start.Keys)
    requires Covers(start, ks)
  {
    ranks == Repeatedly(rule, start, ks, sweeps) &&
    (converged <==> SettlesAt(rule, start, ks, sweeps)) &&
    forall j :: 0 < j < sweeps ==> !SettlesAt(rule, start, ks, j)
  }

  /** The `while True` loop of `iterate_pagerank` for any rule, cut off
      after at most `maxSweeps` sweeps: each pass sweeps once and counts the
      pages that moved by less than the threshold, and the loop stops after
      the first sweep in which all of them did. */
  method SweepUntilSettled(rule: Rule, start: Ranks, ks: seq<Page>, maxSweeps: nat)
    returns (ranks: Ranks, converged: bool, sweeps: nat)
    requires Applies(rule, start.Keys)
    requires Covers(start, ks)
    requires Distinct(ks)
    ensures sweeps <= maxSweeps && LoopState(rule, start, ks, ranks, converged, sweeps)
    ensures !converged ==> sweeps == maxSweeps
  {
    ranks := start;
    converged := false;
    sweeps := 0;
    while sweeps < maxSweeps && !converged
      invariant sweeps <= maxSweeps
      invariant LoopState(rule, start, ks, ranks, converged, sweeps)
    {
      ranks, converged := SweepOnce(rule, start, ks, ranks, sweeps);
      sweeps := sweeps + 1;
    }
  }

  /** What the loop state says about the ranks and the sweeps. */
  lemma LoopStateMeans(rule: Rule, start: Ranks, ks: seq<Page>, ranks: Ranks, converged: bool, sweeps: nat)
    requires Applies(rule, start.Keys)
    requires Covers(start, ks)
    requires LoopState(rule, start, ks, ranks, converged, sweeps)
    ensures ranks == Repeatedly(rule, start, ks, sweeps)
    ensures converged <==> SettlesAt(rule, start, ks, sweeps)
    ensures forall j :: 0 < j < sweeps ==> !SettlesAt(rule, start, ks, j)
  {
  }

  /** One pass of the `while True` body: sweep the ranks after `k` sweeps
      once more, counting the pages that moved by less than the threshold;
      `count == N` says whether this sweep settled every page. The loop
      goes on only after a sweep that did not settle. */
  method SweepOnce(rule: Rule, start: Ranks, ks: seq<Page>, ranks: Ranks, ghost k: nat)
    returns (next: Ranks, settled: bool)
    requires Applies(rule, start.Keys)
    requires Covers(start, ks)
    requires Distinct(ks)
    requires LoopState(rule, start, ks, ranks, false, k)
    ensures next == Repeatedly(rule, start, ks, k + 1)
    ensures settled <==> SettlesAt(rule, start, ks, k + 1)
    ensures LoopState(rule, start, ks, next, settled, k + 1)
  {
    var swept := Sweep(rule, ranks, ks);
    SettlesAtNext(rule, start, ks, k);
    NotSettledBefore(rule, start, ks, k);
    next := swept.ranks;
    settled := swept.settled == |ks|;
  }

  /** Sweep `k + 1` continues from the ranks after `k` sweeps, and it
      settles exactly when it counts every page of `ks` as settled. */
  lemma SettlesAtNext(rule: Rule, start: Ranks, ks: seq<Page>, k: nat)
    requires Applies(rule, start.Keys)
    requires Covers(start, ks)
    requires Distinct(ks)
    ensures var swept := Sweep(rule, Repeatedly(rule, start, ks, k), ks);
      Repeatedly(rule, start, ks, k + 1) == swept.ranks &&
      (SettlesAt(rule, start, ks, k + 1) <==> swept.settled == |ks|)
  {
    SweepSettledIff(rule, Repeatedly(rule, start, ks, k), ks);
  }

  /** A loop that did not stop after sweep `k`, nor after any sweep before
      it, did not stop after any sweep up to `k`. */
  lemma NotSettledBefore(rule: Rule, start: Ranks, ks: seq<Page>, k: nat)
    requires Applies(rule, start.Keys)
    requires Covers(start, ks)
    requires forall j :: 0 < j < k ==> !SettlesAt(rule, start, ks, j)
    requires !SettlesAt(rule, start, ks, k)
    ensures forall j :: 0 < j < k + 1 ==> !SettlesAt(rule, start, ks, j)
  {
  }

  /** Repeated sweeps with a rule that lifts ranks of at least `lo` to at
      least `hi >= lo` keep every rank at least `lo`, and after one sweep or
      more every page of `ks` is at least `hi`. */
  lemma {:induction false} RepeatedlyStaysAbove(rule: Rule, start: Ranks, ks: seq<Page>, k: nat, lo: real, hi: real)
    requires Applies(rule, start.Keys)
    requires Covers(start, ks)
    requires lo <= hi && Lifts(rule, start.Keys, lo, hi)
    requires AllAtLeast(start, lo)
    ensures AllAtLeast(Repeatedly(rule, start, ks, k), lo)
    ensures k > 0 ==> forall i :: 0 <= i < |ks| ==> Repeatedly(rule, start, ks, k)[ks[i]] >= hi
  {
    if k > 0 {
      RepeatedlyStaysAbove(rule, start, ks, k - 1, lo, hi);
      SweepStaysAbove(rule, Repeatedly(rule, start, ks, k - 1), ks, lo, hi);
    }
  }

  /** The ranks after `k` sweeps of `iterate_pagerank`, as if the loop had
      not stopped before: the starting ranks, swept `k` times in key order. */
  function Iterate(c: Corpus, d: real, k: nat): (r: Ranks)
    requires c.WellFormed()
    ensures r.Keys == c.links.Keys
    ensures Covers(r, c.pages)
  {
    KeysCoverPages(c, InitialRanks(c));
    Repeatedly(PageRankRule(c, d), InitialRanks(c), c.pages, k)
  }

  /** The `while True` loop of `iterate_pagerank`, cut off after at most
      `maxSweeps` sweeps. It returns the ranks after the `sweeps` sweeps it
      took; it stops early exactly when the last sweep moved every page by
      less than the threshold, and no earlier sweep did (an empty corpus
      converges at once). With `d` in [0, 1] every rank is at least the
      teleport share. */
  method IteratePageRank(c: Corpus, d: real, maxSweeps: nat) returns (ranks: Ranks, converged: bool, sweeps: nat)
    requires c.WellFormed()
    ensures sweeps <= maxSweeps && ranks == Iterate(c, d, sweeps)
    ensures converged <==> sweeps > 0 && AllSettled(Iterate(c, d, sweeps - 1), ranks, c.pages)
    ensures !converged ==> sweeps == maxSweeps
    ensures forall j :: 0 < j < sweeps ==> !SettlesAt(PageRankRule(c, d), InitialRanks(c), c.pages, j)
    ensures maxSweeps == 0 ==> ranks == InitialRanks(c) && !converged
    ensures |c.links| == 0 && maxSweeps > 0 ==> converged && ranks == map[]
    ensures |c.links| > 0 && 0.0 <= d <= 1.0 ==> AllAtLeast(ranks, TeleportShare(c, d))
  {
    var rule := PageRankRule(c, d);
    var start := InitialRanks(c);
    KeysCoverPages(c, start);
    ranks, converged, sweeps := SweepUntilSettled(rule, start, c.pages, maxSweeps);
    LoopStateMeans(rule, start, c.pages, ranks, converged, sweeps);
    IterateStaysAbove(c, d, sweeps);
  }

  /** With `d` in [0, 1], every rank stays at least the teleport share
      however many sweeps are taken. */
  lemma IterateStaysAbove(c: Corpus, d: real, k: nat)
    requires c.WellFormed()
    ensures |c.links| > 0 && 0.0 <= d <= 1.0 ==> AllAtLeast(Iterate(c, d, k), TeleportShare(c, d))
  {
    if |c.links| > 0 && 0.0 <= d <= 1.0 {
      var rule := PageRankRule(c, d);
      var start := InitialRanks(c);
      KeysCoverPages(c, start);
      InitialRanksSumToOne(c, d);
      PageRankLifts(c, d);
      RepeatedlyStaysAbove(rule, start, c.pages, k, 0.0, TeleportShare(c, d));
      if k > 0 {
        TopsEveryPage(c, Iterate(c, d, k), TeleportShare(c, d));
      }
    }
  }

  /** Ranks that are at least `hi` along the whole key order are at least
      `hi` everywhere. */
  lemma TopsEveryPage(c: Corpus, m: Ranks, hi: real)
    requires c.WellFormed()
    requires m.Keys == c.links.Keys
    requires forall i :: 0 <= i < |c.pages| ==> m[c.pages[i]] >= hi
    ensures AllAtLeast(m, hi)
  {
    forall p | p in m
      ensures m[p] >= hi
    {
      assert p in Elements(c.pages);
      var i :| 0 <= i < |c.pages| && c.pages[i] == p;
    }
  }

  /** The rank each page passes on through its links: all of it, unless
      it has no links, in which case its rank goes nowhere. */
  function Passed(c: Corpus, m: Ranks): (r: Ranks)
    ensures r.Keys == m.Keys
    ensures forall q :: q in m && q in c.links && |c.links[q]| > 0 ==> r[q] == m[q]
    ensures forall q :: q in m && (q !in c.links || |c.links[q]| == 0) ==> r[q] == 0.0
  {
    map q | q in m :: if q in c.links && |c.links[q]| > 0 then m[q] else 0.0
  }

  /** The inflow of every page from the pages `qs`. */
  function InflowMap(c: Corpus, m: Ranks, qs: seq<Page>): (r: Ranks)
    requires forall i :: 0 <= i < |qs| ==> qs[i] in c.links && qs[i] in m
    ensures r.Keys == c.links.Keys
  {
    map k | k in c.links :: Inflow(c, m, k, qs)
  }

  /** Taking one more page `qs[0]` into the inflows adds its link share to
      each page it links to. */
  lemma InflowMapStep(c: Corpus, m: Ranks, qs: seq<Page>)
    requires |qs| > 0
    requires forall i :: 0 <= i < |qs| ==> qs[i] in c.links && qs[i] in m
    ensures forall k :: k in c.links ==>
      InflowMap(c, m, qs)[k] == InflowMap(c, m, qs[1..])[k] + (if k in c.links[qs[0]] then LinkShare(c, m, qs[0]) else 0.0)
  {
  }

  /** Over a well-formed closed corpus, each page links to as many pages
      of the key order as it has links, and those link shares add up to the
      rank it passes on. */
  lemma LinkSharesAddUp(c: Corpus, m: Ranks, q: Page)
    requires c.WellFormed() && c.Closed()
    requires q in c.links && m.Keys == c.links.Keys
    ensures CountIn(c.pages, c.links[q]) == |c.links[q]|
    ensures Repeat(|c.links[q]|, LinkShare(c, m, q)) == Passed(c, m)[q]
  {
    var l := c.links[q];
    CountInDistinct(c.pages, l);
    assert Elements(c.pages) * l == l;
    SharesMakeWhole(m[q], |l|, LinkShare(c, m, q), Passed(c, m)[q]);
  }

  /** Over a closed corpus, the inflows from `qs`, summed over all pages,
      add up to the rank the pages of `qs` pass on: each of them spreads
      its rank evenly over its links, all of which are pages. */
  lemma {:induction false} InflowTotal(c: Corpus, m: Ranks, qs: seq<Page>)
    requires c.WellFormed() && c.Closed()
    requires m.Keys == c.links.Keys
    requires forall i :: 0 <= i < |qs| ==> qs[i] in c.links
    ensures Covers(InflowMap(c, m, qs), c.pages) && Covers(Passed(c, m), qs)
    ensures Sum(c.pages, InflowMap(c, m, qs)) == Sum(qs, Passed(c, m))
  {
    var total := InflowMap(c, m, qs);
    KeysCoverPages(c, total);
    if |qs| == 0 {
      SumOfConstant(c.pages, total, 0.0);
      assert Sum(c.pages, total) == 0.0;
      assert Sum(qs, Passed(c, m)) == 0.0;
    } else {
      var q := qs[0];
      var passed := Passed(c, m);
      InflowTotal(c, m, qs[1..]);
      InflowSumStep(c, m, qs);
      LinkSharesAddUp(c, m, q);
      assert Sum(c.pages, total) == Sum(qs[1..], passed) + passed[q];
      assert Sum(qs, passed) == passed[q] + Sum(qs[1..], passed);
    }
  }

  /** Summed over all pages, taking one more page `qs[0]` into the
      inflows adds one link share per page it links to. */
  lemma InflowSumStep(c: Corpus, m: Ranks, qs: seq<Page>)
    requires c.WellFormed() && c.Closed()
    requires m.Keys == c.links.Keys
    requires |qs| > 0
    requires forall i :: 0 <= i < |qs| ==> qs[i] in c.links
    ensures Covers(InflowMap(c, m, qs), c.pages) && Covers(InflowMap(c, m, qs[1..]), c.pages)
    ensures Sum(c.pages, InflowMap(c, m, qs)) ==
      Sum(c.pages, InflowMap(c, m, qs[1..])) + Repeat(|c.links[qs[0]]|, LinkShare(c, m, qs[0]))
  {
    LinkSharesAddUp(c, m, qs[0]);
    var total := InflowMap(c, m, qs);
    var rest := InflowMap(c, m, qs[1..]);
    KeysCoverPages(c, total);
    KeysCoverPages(c, rest);
    InflowMapStep(c, m, qs);
    PagesAreKeys(c);
    SumOfBump(c.pages, total, rest, c.links[qs[0]], LinkShare(c, m, qs[0]), |c.links[qs[0]]|);
  }

  /** The synchronous PageRank update: every page recomputed from the same
      old ranks. It is the synchronous sweep with the PageRank rule. */
  function PageRankUpdate(c: Corpus, d: real, m: Ranks): (r: Ranks)
    requires c.WellFormed()
    requires m.Keys == c.links.Keys
    ensures r.Keys == c.links.Keys
  {
    map k | k in c.links :: NewRank(c, d, m, k)
  }

  /** The synchronous PageRank update is the synchronous sweep with the
      PageRank rule. */
  lemma PageRankUpdateIsSynchronous(c: Corpus, d: real, m: Ranks)
    requires c.WellFormed()
    requires m.Keys == c.links.Keys
    ensures PageRankUpdate(c, d, m) == SynchronousSweep(PageRankRule(c, d), m)
  {
  }

  /** One synchronous update of a closed corpus hands out `1 - d` in
      teleport shares plus `d` times the rank passed on through links: rank
      held by pages without links is lost. */
  lemma SynchronousTotal(c: Corpus, d: real, m: Ranks)
    requires c.WellFormed() && c.Closed()
    requires |c.links| > 0
    requires m.Keys == c.links.Keys
    ensures Covers(PageRankUpdate(c, d, m), c.pages) && Covers(Passed(c, m), c.pages)
    ensures Sum(c.pages, PageRankUpdate(c, d, m)) == (1.0 - d) + Scale(d, Sum(c.pages, Passed(c, m)))
  {
    SynchronousAffine(c, d, m);
    InflowTotal(c, m, c.pages);
    TeleportSharesAddUp(c, d);
  }

  /** One teleport share per page makes `1 - d`. */
  lemma TeleportSharesAddUp(c: Corpus, d: real)
    requires c.WellFormed()
    requires |c.links| > 0
    ensures Repeat(|c.pages|, TeleportShare(c, d)) == 1.0 - d
  {
    SizeIsLength(c);
    SharesMakeWhole(1.0 - d, |c.links|, TeleportShare(c, d), 1.0 - d);
  }

  /** The synchronous update sums to one teleport share per page plus `d`
      times the summed inflows. */
  lemma SynchronousAffine(c: Corpus, d: real, m: Ranks)
    requires c.WellFormed()
    requires |c.links| > 0
    requires m.Keys == c.links.Keys
    ensures Covers(PageRankUpdate(c, d, m), c.pages) && Covers(InflowMap(c, m, c.pages), c.pages)
    ensures Sum(c.pages, PageRankUpdate(c, d, m)) ==
      Repeat(|c.pages|, TeleportShare(c, d)) + Scale(d, Sum(c.pages, InflowMap(c, m, c.pages)))
  {
    var sync := PageRankUpdate(c, d, m);
    var inflow := InflowMap(c, m, c.pages);
    PagesAreKeys(c);
    KeysCoverPages(c, sync);
    KeysCoverPages(c, inflow);
    forall i | 0 <= i < |c.pages|
      ensures sync[c.pages[i]] == TeleportShare(c, d) + Scale(d, inflow[c.pages[i]])
    {
    }
    SumOfAffine(c.pages, sync, inflow, TeleportShare(c, d), d);
  }

  /** Every page has at least one link. */
  ghost predicate AllLinked(c: Corpus) {
    forall q :: q in c.links ==> |c.links[q]| > 0
  }

  /** When every page has a link, the synchronous update keeps ranks that
      sum to 1 summing to 1, as a probability distribution over the pages. */
  lemma SynchronousKeepsTotal(c: Corpus, d: real, m: Ranks)
    requires c.WellFormed() && c.Closed()
    requires |c.links| > 0
    requires m.Keys == c.links.Keys
    ensures Covers(m, c.pages) && Covers(PageRankUpdate(c, d, m), c.pages)
    ensures AllLinked(c) && Sum(c.pages, m) == 1.0 ==> Sum(c.pages, PageRankUpdate(c, d, m)) == 1.0
  {
    KeysCoverPages(c, m);
    if AllLinked(c) {
      NothingLostWhenAllLinked(c, m);
    }
    PassingOnAllKeepsTotal(c, d, m);
  }

  /** When the rank passed on through links totals 1, the synchronous
      update totals 1 as well. */
  lemma PassingOnAllKeepsTotal(c: Corpus, d: real, m: Ranks)
    requires c.WellFormed() && c.Closed()
    requires |c.links| > 0
    requires m.Keys == c.links.Keys
    ensures Covers(Passed(c, m), c.pages) && Covers(PageRankUpdate(c, d, m), c.pages)
    ensures Sum(c.pages, Passed(c, m)) == 1.0 ==> Sum(c.pages, PageRankUpdate(c, d, m)) == 1.0
  {
    SynchronousTotal(c, d, m);
    if Sum(c.pages, Passed(c, m)) == 1.0 {
      TotalOfWhole(Sum(c.pages, PageRankUpdate(c, d, m)), d, Sum(c.pages, Passed(c, m)));
    }
  }

  /** Teleport mass `1 - d` plus `d` times a whole is a whole. */
  lemma TotalOfWhole(total: real, d: real, passed: real)
    requires total == (1.0 - d) + Scale(d, passed)
    requires passed == 1.0
    ensures total == 1.0
  {
  }

  /** A total that reproduces itself as `1 - d` plus `d` times itself is a
      whole, unless `d = 1`. */
  lemma WholeIfSelfReproducing(total: real, d: real)
    requires total == (1.0 - d) + Scale(d, total)
    requires d != 1.0
    ensures total == 1.0
  {
    assert Scale(d, total - 1.0) == Scale(d, total) - d;
    FixedByOtherFactor(total - 1.0, d);
  }

  /** Only 0 is left unchanged by a factor other than 1. */
  lemma FixedByOtherFactor(x: real, d: real)
    requires x == Scale(d, x) && d != 1.0
    ensures x == 0.0
  {
  }

  /** The in-place sweep of `iterate_pagerank` leaves the ranks `m`
      unchanged. */
  ghost predicate SweepFixes(c: Corpus, d: real, m: Ranks)
    requires c.WellFormed() && m.Keys == c.links.Keys
  {
    KeysCoverPages(c, m);
    Sweep(PageRankRule(c, d), m, c.pages).ranks == m
  }

  /** A fixed point of the in-place sweep is a fixed point of the
      synchronous PageRank update. */
  lemma InPlaceFixedPointIsSynchronous(c: Corpus, d: real, m: Ranks)
    requires c.WellFormed()
    requires m.Keys == c.links.Keys
    requires SweepFixes(c, d, m)
    ensures PageRankUpdate(c, d, m) == m
  {
    FixedPointsAgree(PageRankRule(c, d), m, c.pages);
    PageRankUpdateIsSynchronous(c, d, m);
  }

  /** When every page of a closed corpus has a link and `d != 1`, ranks
      that `iterate_pagerank`'s in-place sweep leaves unchanged sum to 1:
      the docstring's promise holds at the fixed points of the code. */
  lemma InPlaceFixedPointSumsToOne(c: Corpus, d: real, m: Ranks)
    requires c.WellFormed() && c.Closed() && AllLinked(c)
    requires |c.links| > 0 && d != 1.0
    requires m.Keys == c.links.Keys
    requires SweepFixes(c, d, m)
    ensures Covers(m, c.pages) && Sum(c.pages, m) == 1.0
  {
    KeysCoverPages(c, m);
    InPlaceFixedPointIsSynchronous(c, d, m);
    SynchronousFixedPointSumsToOne(c, d, m);
  }

  /** When every page has a link and `d != 1`, a fixed point of the
      synchronous update sums to 1: its total is `1 - d` plus `d` times
      itself. */
  lemma SynchronousFixedPointSumsToOne(c: Corpus, d: real, m: Ranks)
    requires c.WellFormed() && c.Closed() && AllLinked(c)
    requires |c.links| > 0 && d != 1.0
    requires m.Keys == c.links.Keys
    requires PageRankUpdate(c, d, m) == m
    ensures Covers(m, c.pages) && Sum(c.pages, m) == 1.0
  {
    KeysCoverPages(c, m);
    SynchronousTotal(c, d, m);
    NothingLostWhenAllLinked(c, m);
    assert Sum(c.pages, PageRankUpdate(c, d, m)) == Sum(c.pages, m);
    assert Sum(c.pages, PageRankUpdate(c, d, m)) == (1.0 - d) + Scale(d, Sum(c.pages, Passed(c, m)));
    SelfReproducingTotal(Sum(c.pages, PageRankUpdate(c, d, m)), Sum(c.pages, Passed(c, m)), Sum(c.pages, m), d);
  }

  /** An update total of `1 - d` plus `d` times the rank passed on, where
      both the update total and the rank passed on equal the old total, is
      a whole, unless `d = 1`. This and `WholeIfSelfReproducing` are kept
      apart from the corpus lemmas so that the real arithmetic is proved
      without the sums in scope, which keeps each proof small. */
  lemma SelfReproducingTotal(updated: real, passed: real, total: real, d: real)
    requires updated == (1.0 - d) + Scale(d, passed)
    requires passed == total && updated == total
    requires d != 1.0
    ensures total == 1.0
  {
    WholeIfSelfReproducing(total, d);
  }

  /** When every page has a link, every page passes on all of its rank,
      so the rank passed on adds up to the total rank. */
  lemma NothingLostWhenAllLinked(c: Corpus, m: Ranks)
    requires AllLinked(c)
    requires m.Keys == c.links.Keys
    requires Covers(m, c.pages)
    ensures Covers(Passed(c, m), c.pages)
    ensures Sum(c.pages, Passed(c, m)) == Sum(c.pages, m)
  {
    assert Passed(c, m) == m;
  }

  /** Two pages that link to each other. */
  function TwoCycle(): Corpus {
    Corpus(["1.html", "2.html"], map["1.html" := {"2.html"}, "2.html" := {"1.html"}])
  }

  /** In `TwoCycle` each page's inflow is the whole rank of the other. */
  lemma TwoCycleInflow(m: Ranks)
    requires m.Keys == TwoCycle().links.Keys
    ensures TwoCycle().WellFormed()
    ensures Inflow(TwoCycle(), m, "1.html", TwoCycle().pages) == m["2.html"]
    ensures Inflow(TwoCycle(), m, "2.html", TwoCycle().pages) == m["1.html"]
  {
    var c := TwoCycle();
    assert Elements(c.pages) == {"1.html", "2.html"};
    var tail := c.pages[1..];
    assert tail == ["2.html"] && tail[1..] == [];
    assert "1.html" != "2.html";
    assert |c.links["1.html"]| == 1 && |c.links["2.html"]| == 1;
    assert Inflow(c, m, "1.html", tail) == m["2.html"];
    assert Inflow(c, m, "2.html", tail) == 0.0;
  }

  /** In `TwoCycle` with `d = 0.85` a page's new rank is 0.075 plus 0.85
      times the rank of the other page. */
  lemma TwoCycleNewRank(m: Ranks)
    requires m.Keys == TwoCycle().links.Keys
    ensures TwoCycle().WellFormed()
    ensures NewRank(TwoCycle(), 0.85, m, "1.html") == 0.075 + 0.85 * m["2.html"]
    ensures NewRank(TwoCycle(), 0.85, m, "2.html") == 0.075 + 0.85 * m["1.html"]
  {
    TwoCycleInflow(m);
    assert |TwoCycle().links| == 2;
  }

  /** A sweep over two keys updates the first and then the second, reading
      the first one's new rank. */
  lemma SweepOfTwo(rule: Rule, ranks: Ranks, ks: seq<Page>)
    requires Applies(rule, ranks.Keys)
    requires |ks| == 2 && ks[0] in ranks && ks[1] in ranks
    ensures var next := ranks[ks[0] := rule(ranks, ks[0])];
      Sweep(rule, ranks, ks).ranks == next[ks[1] := rule(next, ks[1])]
  {
    assert ks[1..] == [ks[1]] && ks[1..][1..] == [];
  }

  /** Two pages linking to each other, with `d = 0.85`: both updates give
      the first page the same new rank, but the in-place sweep computes the
      second page from the first page's new rank, so the two updates agree
      on it exactly when the first page's rank did not move. From ranks 1
      and 0, for instance, the first page gets 0.075 and the second 0.13875
      in place but 0.925 synchronously. */
  lemma SweepOrderMatters(m: Ranks)
    requires m.Keys == TwoCycle().links.Keys
    ensures TwoCycle().WellFormed()
    ensures var rule := PageRankRule(TwoCycle(), 0.85);
      var inPlace := Sweep(rule, m, TwoCycle().pages).ranks;
      var sync := SynchronousSweep(rule, m);
      && inPlace["1.html"] == sync["1.html"]
      && (inPlace["2.html"] == sync["2.html"] <==> sync["1.html"] == m["1.html"])
  {
    var c := TwoCycle();
    var rule := PageRankRule(c, 0.85);
    TwoCycleNewRank(m);
    var next := m["1.html" := rule(m, "1.html")];
    TwoCycleNewRank(next);
    SweepOfTwo(rule, m, c.pages);
  }

  /** The instance from ranks 1 and 0. */
  lemma SweepOrderExample()
    ensures TwoCycle().WellFormed()
    ensures var rule := PageRankRule(TwoCycle(), 0.85);
      var m := map["1.html" := 1.0, "2.html" := 0.0];
      && Sweep(rule, m, TwoCycle().pages).ranks["2.html"] == 0.13875
      && SynchronousSweep(rule, m)["2.html"] == 0.925
  {
    var c := TwoCycle();
    var m := map["1.html" := 1.0, "2.html" := 0.0];
    var rule := PageRankRule(c, 0.85);
    TwoCycleNewRank(m);
    var next := m["1.html" := rule(m, "1.html")];
    TwoCycleNewRank(next);
    SweepOfTwo(rule, m, c.pages);
  }

  /** One page without links. */
  function LonePage(): Corpus {
    Corpus(["1.html"], map["1.html" := {}])
  }

  /** The lone page receives no inflow. */
  lemma LonePageInflow(m: Ranks)
    requires m.Keys == LonePage().links.Keys
    ensures LonePage().WellFormed()
    ensures Inflow(LonePage(), m, "1.html", LonePage().pages) == 0.0
  {
    assert Elements(LonePage().pages) == {"1.html"};
  }

  /** Rank 0.5 for each page of `TwoCycle`. */
  function TwoCycleHalves(): (r: Ranks)
    ensures r.Keys == TwoCycle().links.Keys
    ensures forall p :: p in r ==> r[p] == 0.5
  {
    map["1.html" := 0.5, "2.html" := 0.5]
  }

  /** In `TwoCycle` with `d = 0.85`, ranks of 0.5 each are left unchanged
      by the in-place sweep and sum to 1, as `InPlaceFixedPointSumsToOne`
      predicts for a closed corpus in which every page has a link. */
  lemma TwoCycleHalvesAreFixed()
    ensures TwoCycle().WellFormed() && TwoCycle().Closed() && AllLinked(TwoCycle())
    ensures SweepFixes(TwoCycle(), 0.85, TwoCycleHalves())
    ensures Covers(TwoCycleHalves(), TwoCycle().pages) && Sum(TwoCycle().pages, TwoCycleHalves()) == 1.0
  {
    var c := TwoCycle();
    var half := TwoCycleHalves();
    assert c.pages == ["1.html", "2.html"];
    assert "1.html" in half && "2.html" in half;
    assert Covers(half, c.pages);
    TwoCycleNewRank(half);
    var rule := PageRankRule(c, 0.85);
    assert rule(half, "1.html") == 0.5;
    assert half["1.html" := 0.5] == half;
    assert rule(half, "2.html") == 0.5;
    assert half["2.html" := 0.5] == half;
    SweepOfTwo(rule, half, c.pages);
    assert c.pages[1..] == ["2.html"] && c.pages[1..][1..] == [];
  }

  /** A corpus of one page without links, with `d = 0.85`: the first sweep
      moves the rank from 1 to 0.15 and the second leaves it there and
      settles, so the loop stops at ranks that sum to 0.15 rather than 1.
      A page without links passes no rank on, and nothing replaces it. */
  lemma DanglingPageLosesRank()
    ensures var rule := PageRankRule(LonePage(), 0.85);
      && LonePage().WellFormed()
      && InitialRanks(LonePage()) == map["1.html" := 1.0]
      && Sweep(rule, InitialRanks(LonePage()), LonePage().pages) == SweepResult(map["1.html" := 0.15], 0)
      && Sweep(rule, map["1.html" := 0.15], LonePage().pages) == SweepResult(map["1.html" := 0.15], 1)
      && Sum(LonePage().pages, map["1.html" := 0.15]) == 0.15
  {
    var c := LonePage();
    var start := map["1.html" := 1.0];
    var settled := map["1.html" := 0.15];
    LonePageInflow(start);
    LonePageInflow(settled);
    assert |c.links| == 1;
    var rule := PageRankRule(c, 0.85);
    assert InitialRanks(c) == start;
    assert rule(start, "1.html") == 0.15;
    assert rule(settled, "1.html") == 0.15;
    assert c.pages[1..] == [];
    assert start["1.html" := 0.15] == settled;
    assert settled["1.html" := 0.15] == settled;
  }
}

=== FILE: link_graph.dfy ===
/** The corpus that both rank estimators work on: a dictionary from page
    name to the set of page names it links to, together with the order in
    which the dictionary is iterated. Also the Python exceptions the core
    can raise, as values. */
module LinkGraph {
  import opened Sums

  /** A page is named by its file name. */
  type Page = string

  /** The exceptions the modelled code raises on bad input. */
  datatype PyError =
    | ZeroDivisionError  // a division by a zero count
    | IndexError         // a random choice from an empty list
    | ValueError         // a random choice whose weights total at most 0

  /** The outcome of a computation that may raise. */
  datatype Result<T> = Ok(value: T) | Err(error: PyError)

  /** `pages` is the dictionary's iteration (insertion) order and `links`
      its contents. */
  datatype Corpus = Corpus(pages: seq<Page>, links: map<Page, set<Page>>) {

    /** The key order lists every key of the dictionary exactly once. */
    ghost predicate WellFormed() {
      Distinct(pages) && links.Keys == Elements(pages)
    }

    /** Every link target is a page of the corpus. */
    ghost predicate Closed() {
      forall p :: p in links ==> links[p] <= links.Keys
    }

    /** No page lists itself as a link target. */
    ghost predicate NoSelfLinks() {
      forall p :: p in links ==> p !in links[p]
    }

    /** The invariants of a corpus that the crawler hands to the estimators. */
    ghost predicate IsLinkGraph() {
      WellFormed() && Closed() && NoSelfLinks()
    }
  }

  /** `len(corpus)` equals the length of the key order. */
  lemma SizeIsLength(c: Corpus)
    requires c.WellFormed()
    ensures |c.links| == |c.pages|
  {
    DistinctCardinality(c.pages);
    assert c.links.Keys == Elements(c.pages);
  }

  /** Every page of the key order is a key of the dictionary. */
  lemma PagesAreKeys(c: Corpus)
    requires c.WellFormed()
    ensures forall i :: 0 <= i < |c.pages| ==> c.pages[i] in c.links
  {
    forall i | 0 <= i < |c.pages|
      ensures c.pages[i] in c.links
    {
      assert c.pages[i] in Elements(c.pages);
    }
  }

  /** A map keyed by the corpus keys has an entry for every page of the key
      order. */
  lemma KeysCoverPages<V>(c: Corpus, m: map<Page, V>)
    requires c.WellFormed()
    requires m.Keys == c.links.Keys
    ensures Covers(m, c.pages)
  {
    PagesAreKeys(c);
  }
}

=== FILE: sampling.dfy ===
/** `sample_pagerank`: a random surfer walks `n` steps and each page's rank
    is the share of steps that landed on it. The random choices are not
    modelled; the pages they return are an input, `draws`: `draws[0]` is the
    uniformly chosen start page and `draws[i]` the page drawn at step `i`
    from the transition weights of `draws[i - 1]`. */
module Sampling {
  import opened Sums
  import opened LinkGraph
  import opened Transition

  /** How many pages the source draws for a sample count of `n`: the start
      page is drawn whatever `n` is, and one more for each step
      `1 <= i < n`. */
  function DrawCount(n: int): nat {
    if n >= 1 then n else 1
  }

  /** `next` has positive weight in the transition model of `page`, so a
      weighted random choice can return it. */
  ghost predicate CanStep(c: Corpus, d: real, page: Page, next: Page) {
    var model := TransitionModel(c, page, d);
    model.Ok? && next in model.value && model.value[next] > 0.0
  }

  /** The total of the transition weights of `page`, in the key order in
      which `sample_pagerank` hands them to `random.choices`. */
  function WeightTotal(c: Corpus, d: real, page: Page): real
    requires c.WellFormed() && page in c.links
  {
    var model := TransitionModel(c, page, d).value;
    KeysCoverPages(c, model);
    Sum(c.pages, model)
  }

  /** `random.choices` raises `ValueError` on the weights of `page`: they
      total at most 0. */
  predicate Stuck(c: Corpus, d: real, page: Page)
    requires c.WellFormed() && page in c.links
  {
    WeightTotal(c, d, page) <= 0.0
  }

  /** In a closed corpus with `d` in [0, 1], the weights of a page total at
      most 0 exactly when `d` is 1 and the page has no links: the weights
      of a page with links total 1, those of a page without total `1 - d`. */
  lemma StuckIffUndampedDangling(c: Corpus, d: real, page: Page)
    requires c.WellFormed() && c.Closed()
    requires page in c.links
    requires 0.0 <= d <= 1.0
    ensures Stuck(c, d, page) <==> d == 1.0 && c.links[page] == {}
  {
    if c.links[page] == {} {
      DanglingTransition(c, page, d);
    } else {
      TransitionSumsToOne(c, page, d);
    }
  }

  /** Each draw after the first is a possible choice from the page before
      it, unless the weights of that page make the choice raise. */
  ghost predicate FollowsModel(c: Corpus, d: real, draws: seq<Page>) {
    c.WellFormed() &&
    forall i :: 0 <= i < |draws| - 1 ==>
      draws[i] in c.links && (Stuck(c, d, draws[i]) || CanStep(c, d, draws[i], draws[i + 1]))
  }

  /** With `d` in [0, 1) every page has positive weight after every page, so
      any sequence of corpus pages is a walk the sampler can take. */
  lemma {:induction false} EveryWalkFollowsModel(c: Corpus, d: real, draws: seq<Page>)
    requires c.WellFormed()
    requires 0.0 <= d < 1.0
    requires forall i :: 0 <= i < |draws| ==> draws[i] in c.links
    ensures FollowsModel(c, d, draws)
  {
    forall i | 0 <= i < |draws| - 1
      ensures CanStep(c, d, draws[i], draws[i + 1])
    {
      assert draws[i] in c.links && draws[i + 1] in c.links;
    }
  }

  /** The number of steps of `walk` that landed on `p`. */
  function Visits(walk: seq<Page>, p: Page): (k: nat)
    ensures k <= |walk|
  {
    if |walk| == 0 then 0
    else Visits(walk[..|walk| - 1], p) + (if walk[|walk| - 1] == p then 1 else 0)
  }

  /** The visit count is the multiplicity of the page in the walk. */
  lemma {:induction false} VisitsIsMultiplicity(walk: seq<Page>, p: Page)
    ensures Visits(walk, p) == multiset(walk)[p]
  {
    if |walk| > 0 {
      var init := walk[..|walk| - 1];
      assert walk == init + [walk[|walk| - 1]];
      VisitsIsMultiplicity(init, p);
    }
  }

  /** The visit shares of a walk of `n` draws. An empty corpus makes the
      first random choice raise; a sample count of zero makes `1 / n`
      raise; a step from a page whose weights total at most 0 makes that
      random choice raise. Otherwise every page's rank is its number of
      visits divided by `n`, so for `n >= 1` the ranks lie in [0, 1] and sum
      to exactly 1. */
  method SamplePageRank(c: Corpus, d: real, n: int, draws: seq<Page>) returns (r: Result<map<Page, real>>)
    requires c.WellFormed()
    requires |c.pages| > 0 ==> |draws| == DrawCount(n)
    requires forall i :: 0 <= i < |draws| ==> draws[i] in c.links
    requires FollowsModel(c, d, draws)
    ensures |c.pages| == 0 <==> r == Err(IndexError)
    ensures |c.pages| > 0 && n == 0 <==> r == Err(ZeroDivisionError)
    ensures r == Err(ValueError) <==>
      |c.pages| > 0 && n != 0 && exists i :: 0 <= i < |draws| - 1 && Stuck(c, d, draws[i])
    ensures r.Ok? ==> r.value.Keys == c.links.Keys
    ensures r.Ok? ==> forall p :: p in r.value ==> r.value[p] == multiset(draws)[p] as real / n as real
    ensures r.Ok? && n >= 1 ==> forall p :: p in r.value ==> 0.0 <= r.value[p] <= 1.0
    ensures r.Ok? && n >= 1 ==> Covers(r.value, c.pages) && Sum(c.pages, r.value) == 1.0
  {
    if |c.pages| == 0 {
      return Err(IndexError);
    }
    if n == 0 {
      return Err(ZeroDivisionError);
    }
    // The exception discards the ranks recorded before it, so the steps can
    // be checked before any rank is recorded.
    var stuck := StepsFromAny(draws, StuckPages(c, d));
    if stuck {
      return Err(ValueError);
    }
    var rank := RecordWalk(c.links.Keys, 1.0 / n as real, draws);
    assert rank == VisitShares(c.links.Keys, draws, 1.0 / n as real);
    VisitSharesSum(c, draws, 1.0 / n as real);
    SharesAsFractions(rank, draws, n);
    forall p | p in rank
      ensures rank[p] == multiset(draws)[p] as real / n as real
    {
      VisitsIsMultiplicity(draws, p);
    }
    return Ok(rank);
  }

  /** The pages whose weights make `random.choices` raise. */
  function StuckPages(c: Corpus, d: real): set<Page>
    requires c.WellFormed()
  {
    set p | p in c.links && Stuck(c, d, p)
  }

  /** Whether some step of `walk` starts from a page of `blocked`; the last
      page starts no step. */
  method StepsFromAny(walk: seq<Page>, blocked: set<Page>) returns (found: bool)
    ensures found <==> exists i :: 0 <= i < |walk| - 1 && walk[i] in blocked
  {
    if |walk| == 0 {
      return false;
    }
    var i := 0;
    while i < |walk| - 1
      invariant 0 <= i <= |walk| - 1
      invariant forall j :: 0 <= j < i ==> walk[j] !in blocked
    {
      if walk[i] in blocked {
        return true;
      }
      i := i + 1;
    }
    return false;
  }

  /** The bookkeeping of the sampler: every page of `keys` starts at 0 and
      each draw adds one `share` to the rank of the page drawn. */
  method RecordWalk(keys: set<Page>, share: real, draws: seq<Page>) returns (rank: map<Page, real>)
    requires forall i :: 0 <= i < |draws| ==> draws[i] in keys
    ensures rank.Keys == keys
    ensures forall p :: p in rank ==> rank[p] == Repeat(Visits(draws, p), share)
  {
    rank := map p | p in keys :: 0.0;
    // Step 0 records the start page; steps 1 .. n - 1 record the walk.
    var i := 0;
    while i < |draws|
      invariant 0 <= i <= |draws|
      invariant rank.Keys == keys
      invariant forall p :: p in rank ==> rank[p] == Repeat(Visits(draws[..i], p), share)
    {
      assert draws[..i + 1][..i] == draws[..i];
      rank := rank[draws[i] := rank[draws[i]] + share];
      i := i + 1;
    }
    assert draws[..i] == draws;
  }

  /** The ranks after recording `walk` on top of all-zero ranks for `keys`:
      every page's rank is its number of visits, in shares. */
  function VisitShares(keys: set<Page>, walk: seq<Page>, share: real): map<Page, real> {
    map p | p in keys :: Repeat(Visits(walk, p), share)
  }

  /** Recording one more step adds one share to the page drawn. */
  lemma VisitSharesStep(keys: set<Page>, walk: seq<Page>, share: real)
    requires |walk| > 0 && walk[|walk| - 1] in keys
    ensures var before := VisitShares(keys, walk[..|walk| - 1], share);
      VisitShares(keys, walk, share) == before[walk[|walk| - 1] := before[walk[|walk| - 1]] + share]
  {
  }

  /** Over a well-formed corpus the visit shares add up to one share per
      step of the walk. */
  lemma {:induction false} VisitSharesSum(c: Corpus, walk: seq<Page>, share: real)
    requires c.WellFormed()
    requires forall i :: 0 <= i < |walk| ==> walk[i] in c.links
    ensures Covers(VisitShares(c.links.Keys, walk, share), c.pages)
    ensures Sum(c.pages, VisitShares(c.links.Keys, walk, share)) == Repeat(|walk|, share)
  {
    var rank := VisitShares(c.links.Keys, walk, share);
    KeysCoverPages(c, rank);
    if |walk| == 0 {
      SumOfConstant(c.pages, rank, 0.0);
    } else {
      var init := walk[..|walk| - 1];
      var last := walk[|walk| - 1];
      VisitSharesSum(c, init, share);
      var before := VisitShares(c.links.Keys, init, share);
      VisitSharesStep(c.links.Keys, walk, share);
      assert last in Elements(c.pages);
      SumOfUpdate(c.pages, before, last, before[last] + share);
    }
  }

  /** Once the whole walk is recorded, each rank is its visit count over
      `n` and, for a positive `n`, lies in [0, 1]; the ranks add up to 1. */
  lemma SharesAsFractions(rank: map<Page, real>, draws: seq<Page>, n: int)
    requires n != 0 && |draws| == DrawCount(n)
    requires forall p :: p in rank ==> rank[p] == Repeat(Visits(draws, p), 1.0 / n as real)
    ensures forall p :: p in rank ==> rank[p] == Visits(draws, p) as real / n as real
    ensures n >= 1 ==> forall p :: p in rank ==> 0.0 <= rank[p] <= 1.0
    ensures n >= 1 ==> Repeat(|draws|, 1.0 / n as real) == 1.0
  {
    forall p | p in rank
      ensures rank[p] == Visits(draws, p) as real / n as real
      ensures n >= 1 ==> 0.0 <= rank[p] <= 1.0
    {
      RepeatedShares(Visits(draws, p), n);
    }
    RepeatedShares(|draws|, n);
  }

  /** `k` additions of `1 / n` make `k / n`; for `n >= 1` and `k <= n` that
      lies in [0, 1], and `n` of them make 1. */
  lemma {:induction false} RepeatedShares(k: nat, n: int)
    requires n != 0
    ensures Repeat(k, 1.0 / n as real) == k as real / n as real
    ensures 1 <= n && k <= n ==> 0.0 <= Repeat(k, 1.0 / n as real) <= 1.0
    ensures k == n ==> Repeat(k, 1.0 / n as real) == 1.0
  {
    if k > 0 {
      RepeatedShares(k - 1, n);
      assert (k - 1) as real / n as real + 1.0 / n as real == k as real / n as real;
    }
    if 1 <= n && k <= n {
      FractionAtMostOne(k, n);
    }
  }

  /** A fraction whose numerator is at most its positive denominator lies
      in [0, 1]. */
  lemma FractionAtMostOne(k: nat, n: int)
    requires 1 <= n && k <= n
    ensures 0.0 <= k as real / n as real <= 1.0
  {
    assert k as real / n as real <= n as real / n as real;
  }
}

=== FILE: sums.dfy ===
/** Finite sums of map entries taken along a sequence of keys, and the
    counting facts about duplicate-free key sequences that the rank proofs
    rely on. A rank map is summed along the corpus' key order, which is how
    the Python dictionaries are iterated. */
module Sums {

  /** No key occurs twice in `s`. */
  ghost predicate Distinct<K>(s: seq<K>) {
    forall i, j :: 0 <= i < j < |s| ==> s[i] != s[j]
  }

  /** The set of keys listed by `s`. */
  function Elements<K>(s: seq<K>): set<K> {
    set x | x in s
  }

  /** Every key listed by `s` has an entry in `m`. */
  ghost predicate Covers<K, V>(m: map<K, V>, s: seq<K>) {
    forall i :: 0 <= i < |s| ==> s[i] in m
  }

  /** The sum of `m[k]` over the keys `k` of `s`. */
  function Sum<K>(s: seq<K>, m: map<K, real>): real
    requires Covers(m, s)
  {
    if |s| == 0 then 0.0 else m[s[0]] + Sum(s[1..], m)
  }

  /** The number of positions of `s` whose key lies in `l`. */
  function CountIn<K>(s: seq<K>, l: set<K>): (n: nat)
    ensures n <= |s|
  {
    if |s| == 0 then 0 else (if s[0] in l then 1 else 0) + CountIn(s[1..], l)
  }

  /** A duplicate-free sequence lists exactly |s| different keys. */
  lemma {:induction false} DistinctCardinality<K>(s: seq<K>)
    requires Distinct(s)
    ensures |Elements(s)| == |s|
  {
    if |s| > 0 {
      DistinctCardinality(s[1..]);
      assert Elements(s) == {s[0]} + Elements(s[1..]);
      assert s[0] !in Elements(s[1..]);
    }
  }

  /** In a duplicate-free sequence, counting the positions that hit `l` is
      the same as counting the listed keys that lie in `l`. */
  lemma {:induction false} CountInDistinct<K>(s: seq<K>, l: set<K>)
    requires Distinct(s)
    ensures CountIn(s, l) == |Elements(s) * l|
  {
    if |s| > 0 {
      CountInDistinct(s[1..], l);
      var rest := Elements(s[1..]) * l;
      assert s[0] !in Elements(s[1..]);
      if s[0] in l {
        assert Elements(s) * l == {s[0]} + rest;
      } else {
        assert Elements(s) * l == rest;
      }
    }
  }

  /** Summing one value over every key gives |s| times that value. */
  lemma {:induction false} SumOfConstant<K>(s: seq<K>, m: map<K, real>, v: real)
    requires Covers(m, s)
    requires forall i :: 0 <= i < |s| ==> m[s[i]] == v
    ensures Sum(s, m) == |s| as real * v
  {
    if |s| > 0 {
      SumOfConstant(s[1..], m, v);
    }
  }

  /** A map that holds `lo` everywhere except on the keys of `l`, where it
      holds `lo + extra`, sums to |s| * lo plus one `extra` per hit of `l`. */
  lemma {:induction false} SumOfTwoLevels<K>(s: seq<K>, m: map<K, real>, l: set<K>, lo: real, extra: real)
    requires Covers(m, s)
    requires forall i :: 0 <= i < |s| ==> m[s[i]] == (if s[i] in l then lo + extra else lo)
    ensures Sum(s, m) == |s| as real * lo + CountIn(s, l) as real * extra
  {
    if |s| > 0 {
      SumOfTwoLevels(s[1..], m, l, lo, extra);
    }
  }

  /** `|s|` equal shares of `x` sum to `x`. */
  lemma SumOfShares<K>(s: seq<K>, m: map<K, real>, x: real)
    requires |s| > 0
    requires Covers(m, s)
    requires forall i :: 0 <= i < |s| ==> m[s[i]] == x / |s| as real
    ensures Sum(s, m) == x
  {
    SumOfConstant(s, m, x / |s| as real);
  }

  /** A share of `x` at every key plus, at the `k` keys of `l`, a share of
      `y` sums to `x + y`. */
  lemma SumOfSplitShares<K>(s: seq<K>, m: map<K, real>, l: set<K>, x: real, y: real, k: nat)
    requires |s| > 0 && k > 0
    requires CountIn(s, l) == k
    requires Covers(m, s)
    requires forall i :: 0 <= i < |s| ==>
      m[s[i]] == (if s[i] in l then x / |s| as real + y / k as real else x / |s| as real)
    ensures Sum(s, m) == x + y
  {
    SumOfTwoLevels(s, m, l, x / |s| as real, y / k as real);
  }

  /** Overwriting the entry of one key changes the sum by the difference,
      once for each time the key is listed (at most once here). */
  lemma {:induction false} SumOfUpdate<K>(s: seq<K>, m: map<K, real>, k: K, v: real)
    requires Distinct(s)
    requires Covers(m, s)
    requires k in m
    ensures Covers(m[k := v], s)
    ensures Sum(s, m[k := v]) == Sum(s, m) + (if k in s then v - m[k] else 0.0)
  {
    if |s| > 0 {
      SumOfUpdate(s[1..], m, k, v);
      assert k in s <==> k == s[0] || k in s[1..];
      if k == s[0] {
        assert k !in s[1..];
      }
    }
  }

  /** Cutting a duplicate-free sequence at `j` gives two duplicate-free
      parts with no key in common. */
  lemma DistinctParts<K>(s: seq<K>, j: int)
    requires Distinct(s)
    requires 0 <= j <= |s|
    ensures Distinct(s[..j]) && Distinct(s[j..])
    ensures forall i :: 0 <= i < j ==> s[i] !in s[j..]
    ensures forall i :: j <= i < |s| ==> s[i] !in s[..j]
  {
    forall i | 0 <= i < j
      ensures s[i] !in s[j..]
    {
    }
    forall i | j <= i < |s|
      ensures s[i] !in s[..j]
    {
    }
  }

  /** `share` added to 0 `k` times over. */
  function Repeat(k: nat, share: real): real {
    if k == 0 then 0.0 else Repeat(k - 1, share) + share
  }

  /** Adding a share `k` times over is multiplying it by `k`. */
  lemma {:induction false} RepeatIsProduct(k: nat, share: real)
    ensures Repeat(k, share) == k as real * share
  {
    if k > 0 {
      RepeatIsProduct(k - 1, share);
    }
  }

  /** `k` shares of `x / k` make `x`, and no shares make nothing. */
  lemma SharesMakeWhole(x: real, k: nat, share: real, whole: real)
    requires share == if k > 0 then x / k as real else 0.0
    requires whole == if k > 0 then x else 0.0
    ensures Repeat(k, share) == whole
  {
    RepeatIsProduct(k, share);
  }

  /** Adding `extra` at the keys of `l` to the entries of `b` adds one
      `extra` per hit of `l` to the sum. */
  lemma {:induction false} SumOfBump<K>(s: seq<K>, a: map<K, real>, b: map<K, real>, l: set<K>, extra: real, hits: nat)
    requires Covers(a, s) && Covers(b, s)
    requires forall i :: 0 <= i < |s| ==> a[s[i]] == b[s[i]] + (if s[i] in l then extra else 0.0)
    requires hits == CountIn(s, l)
    ensures Sum(s, a) == Sum(s, b) + Repeat(hits, extra)
  {
    if |s| > 0 {
      SumOfBump(s[1..], a, b, l, extra, CountIn(s[1..], l));
    }
  }

  /** `x` multiplied by `factor`. Products of two unknowns are kept behind
      this name so that the sum proofs do not have to reason about them. */
  function Scale(factor: real, x: real): real {
    factor * x
  }

  /** Scaling distributes over addition. */
  lemma ScaleDistributes(factor: real, x: real, y: real)
    ensures Scale(factor, x + y) == Scale(factor, x) + Scale(factor, y)
  {
  }

  /** Entries of the form `base + factor * b[k]` sum to |s| bases plus
      `factor` times the sum of `b`. */
  lemma {:induction false} SumOfAffine<K>(s: seq<K>, a: map<K, real>, b: map<K, real>, base: real, factor: real)
    requires Covers(a, s) && Covers(b, s)
    requires forall i :: 0 <= i < |s| ==> a[s[i]] == base + Scale(factor, b[s[i]])
    ensures Sum(s, a) == Repeat(|s|, base) + Scale(factor, Sum(s, b))
  {
    if |s| > 0 {
      SumOfAffine(s[1..], a, b, base, factor);
      ScaleDistributes(factor, b[s[0]], Sum(s[1..], b));
      assert Repeat(|s|, base) == Repeat(|s[1..]|, base) + base;
    }
  }
}

=== FILE: transition.dfy ===
/** `transition_model`: the probability of each page being visited next,
    given the current page and the damping factor. With probability `d` the
    surfer follows one of the current page's links, chosen uniformly; with
    probability `1 - d` it jumps to a page chosen uniformly from the whole
    corpus. */
module Transition {
  import opened Sums
  import opened LinkGraph

  /** The link set the scan of the corpus picks up for `page`: its links
      when it is a key, and nothing otherwise. */
  function Linked(c: Corpus, page: Page): set<Page> {
    if page in c.links then c.links[page] else {}
  }

  /** The keys the scan records as not linked from `page`; stays empty when
      `page` is not a key. */
  function Unlinked(c: Corpus, page: Page): set<Page> {
    if page in c.links then c.links.Keys - c.links[page] else {}
  }

  /** A page of the corpus is either linked from `page` or not, so the
      count that the teleport share is divided by is positive exactly when
      `page` is a key. */
  lemma CountIsPositiveForKeys(c: Corpus, page: Page)
    ensures |Linked(c, page)| + |Unlinked(c, page)| > 0 <==> page in c.links
  {
    if page in c.links {
      if page in Linked(c, page) {
        assert |Linked(c, page)| > 0;
      } else {
        assert page in Unlinked(c, page);
      }
    }
  }

  /** The next-page weights from `page`. A page that is not a key leaves the
      count of pages at zero and the division by it raises. For `d` in
      [0, 1] every weight is non-negative, and for `d` in [0, 1) every page
      can be drawn. */
  function TransitionModel(c: Corpus, page: Page, d: real): (r: Result<map<Page, real>>)
    ensures r.Err? <==> page !in c.links
    ensures r.Err? ==> r.error == ZeroDivisionError
    ensures r.Ok? ==> r.value.Keys == c.links.Keys
    ensures r.Ok? && 0.0 <= d <= 1.0 ==> forall q :: q in r.value ==> r.value[q] >= 0.0
    ensures r.Ok? && 0.0 <= d < 1.0 ==> forall q :: q in r.value ==> r.value[q] > 0.0
  {
    var linked := Linked(c, page);
    var unlinked := Unlinked(c, page);
    var total := |linked| + |unlinked|;
    CountIsPositiveForKeys(c, page);
    if total == 0 then Err(ZeroDivisionError)
    else
      var base := (1.0 - d) / total as real;
      Ok(map q | q in c.links :: if q in linked then base + d / |linked| as real else base)
  }

  /** The textbook weight of `q` after `page`: the teleport share
      `(1 - d) / N` plus `d / k` when `q` is one of the `k` pages `page`
      links to. */
  function Weight(c: Corpus, page: Page, d: real, q: Page): real
    requires page in c.links
  {
    var n := |c.links|;
    var l := c.links[page];
    (1.0 - d) / n as real + (if q in l then d / |l| as real else 0.0)
  }

  /** When every link of `page` stays inside the corpus, linked and
      unlinked pages split the corpus, so the count divided by is the
      number of pages and every weight is the textbook weight. */
  lemma TransitionMatchesWeight(c: Corpus, page: Page, d: real)
    requires page in c.links
    requires c.links[page] <= c.links.Keys
    ensures TransitionModel(c, page, d).Ok?
    ensures forall q :: q in c.links ==> TransitionModel(c, page, d).value[q] == Weight(c, page, d, q)
  {
    var l := c.links[page];
    var keys := c.links.Keys;
    assert l + (keys - l) == keys;
    assert |Linked(c, page)| + |Unlinked(c, page)| == |c.links|;
  }

  /** From a page with at least one link, all of them inside a well-formed
      corpus, the weights form a probability distribution: they sum to 1. */
  lemma TransitionSumsToOne(c: Corpus, page: Page, d: real)
    requires c.WellFormed()
    requires page in c.links
    requires c.links[page] <= c.links.Keys
    requires c.links[page] != {}
    ensures TransitionModel(c, page, d).Ok?
    ensures Covers(TransitionModel(c, page, d).value, c.pages)
    ensures Sum(c.pages, TransitionModel(c, page, d).value) == 1.0
  {
    var m := TransitionModel(c, page, d).value;
    var l := c.links[page];
    TransitionMatchesWeight(c, page, d);
    SizeIsLength(c);
    forall i | 0 <= i < |c.pages|
      ensures m[c.pages[i]] == Weight(c, page, d, c.pages[i])
    {
      assert c.pages[i] in c.links;
    }
    CountInDistinct(c.pages, l);
    assert Elements(c.pages) * l == l;
    SumOfSplitShares(c.pages, m, l, 1.0 - d, d, |l|);
  }

  /** A dangling page (no links at all) gets the teleport share everywhere
      and never divides by its zero link count, so its weights sum to
      `1 - d` rather than 1. */
  lemma DanglingTransition(c: Corpus, page: Page, d: real)
    requires c.WellFormed()
    requires page in c.links
    requires c.links[page] == {}
    ensures TransitionModel(c, page, d).Ok?
    ensures forall q :: q in c.links ==> TransitionModel(c, page, d).value[q] == (1.0 - d) / |c.links| as real
    ensures Covers(TransitionModel(c, page, d).value, c.pages)
    ensures Sum(c.pages, TransitionModel(c, page, d).value) == 1.0 - d
  {
    var m := TransitionModel(c, page, d).value;
    TransitionMatchesWeight(c, page, d);
    SizeIsLength(c);
    forall i | 0 <= i < |c.pages|
      ensures m[c.pages[i]] == (1.0 - d) / |c.pages| as real
    {
      assert c.pages[i] in c.links;
    }
    SumOfShares(c.pages, m, 1.0 - d);
  }
}
